=== FILE: README.md ===
# Smart Campus front end: validators, session store and API pipeline in Dafny

This project models the decision logic of the Smart Campus System browser
front end as pure Dafny functions, and proves properties of it. It covers
three scripts:

- **`public/js/utils.js`**: the form validators `validatePassword` and
  `validateEmail`, the status-badge mapping `getStatusBadge`, `truncateText`
  and `escapeHtml`. These are in modules `Validators`, `StatusBadges` and
  `TextFormat`.
- **`public/js/auth.js`**:
  - The token and user store over `localStorage` (module `Session`).
  - The `apiRequest` helper, split at the `fetch` call into `BuildRequest`
    (the URL, merged headers and encoded body handed to `fetch`) and
    `ClassifyResponse` (the value returned or the exception thrown once the
    response arrives), in module `Api`.
  - The `doLogin`, `doSignup`, `logout` and `redirectToDashboard` flows, in
    module `Auth`.
- **`public/js/config.js`**: the start-up choice of `API_BASE_URL`, in
  module `Config`.

Supporting modules:

- `Wrappers` holds `Option` (for `null`/`undefined`) and `Result` (for a
  returned value or a thrown exception).
- `JsText` holds the JavaScript string semantics the code relies on: `\s`,
  `\w`, `trim`, `includes`, `startsWith`, ASCII case mapping and integer
  printing.
- `Json` holds parsed JSON values with JavaScript truthiness, property reads
  and `String(v)`.

How JavaScript's effects are modelled:

- `localStorage` is a `map<string, string>`. Every writing operation returns
  the new map.
- `window.location.href = …` becomes a returned destination string.
- The response `fetch` resolves to is an input.
- `JSON.parse` (partial: `None` where it throws) and `JSON.stringify` are
  the two function fields of a `Codec` value supplied by the caller. Their
  text format is not modelled. Round-trip properties assume `Faithful(codec)`:
  parsing what was printed gives the value back, and printed text is never
  empty.

Exceptions are values of `Api.Exception`:

- `Error(message)` for `new Error(…)`.
- `SyntaxError` for `response.json()` on text that is not JSON.
- `TypeError(property)` for reading a property of a JSON `null` body. This
  happens when a failing JSON response carries `null`: reading `data.error`
  throws. It also happens when a successful login or signup reply is `null`.

The e-mail check is modelled as a deterministic automaton (`Validators.Run`)
accepting the same texts as the pattern `^[^\s@]+@[^\s@]+\.[^\s@]+$`. It is
proved equal to a declarative statement of the pattern (`IsEmailAddress`). That statement is proved equal to a
reader's description: no whitespace, exactly one `@`, a non-empty local part,
and a dot inside the domain.

## Behaviour worth knowing

Four facts about the code:

- **FormData and `Content-Type`.** `apiRequest` always sets a default
  `Content-Type: application/json`, whatever the body. A `FormData` body is
  therefore still sent under that header unless the caller's headers
  override it (`Api.BuildRequest`, `Api.FormDataKeepsJsonContentType`).
- **Rejected `fetch`.** A rejected `fetch` is rethrown as it is; there is no
  separate network-error kind. That path is not modelled (see below), and
  `Api.Exception` has no network-error case.
- **Base URL.** The base URL has exactly two outcomes: the override when it
  starts with `http`, otherwise the fixed production URL (`Config.ApiBaseUrl`).
- **Unreadable stored user.** An unreadable stored user reads as `null`,
  modelled as `Json.Null` (`Session.GetCurrentUser`).

## Model

| member | source | states |
|---|---|---|
| `Validators.ValidatePassword` | public/js/utils.js:81-87 | accepts exactly the passwords of at least 8 characters with an upper-case letter, a digit and one of `!@#$%^&*`; an absent or short password is rejected whatever its characters |
| `Validators.HasCharIn` | public/js/utils.js:83-85 | an unanchored `(?=.*[X])` test holds exactly when some character of the password is in class X |
| `Validators.ValidateEmail` | public/js/utils.js:75-79 | false for an absent or empty value; otherwise true exactly when the trimmed text matches the address pattern |
| `Validators.RunAccepts` | public/js/utils.js:77 | the automaton run on a text accepts exactly the texts of the form local `@` domain, with plain local and domain parts and a dot inside the domain |
| `Validators.EmailAddressShape` | public/js/utils.js:77 | the pattern holds exactly when the text has no whitespace, exactly one `@` after a non-empty local part, and a dot with text on both sides in the domain |
| `Validators.ValidateEmailShape` | public/js/utils.js:75-79 | the validator's verdict in the reader's terms: non-empty input whose trimmed form has no whitespace, one `@`, a local part and a dotted domain |
| `JsText.Trim` | public/js/utils.js:78 | the result is the input with its leading and trailing whitespace removed: a contiguous middle part, all outside characters whitespace, its own ends not whitespace |
| `JsText.Includes` | public/js/auth.js:75 | `includes` holds exactly when the part occurs at some position of the text |
| `StatusBadges.ClassFor` | public/js/utils.js:101-117 | the lookup only ever yields one of the four palette classes: a key in the 13-entry table gets its entry, and any other key gets `badge-info` |
| `StatusBadges.StatusBadge` | public/js/utils.js:89-120 | an absent or empty status shows `Unknown`; any other status, apart from a closed issue, gets the table class of its lower-cased form (`badge-info` when unlisted) and its display text; every class is one of the four palette classes |
| `StatusBadges.GetStatusBadge` | public/js/utils.js:89-121 | the result is the `<span>` element whose class attribute is `badge` followed by the badge's class, always one starting with `badge-`, and whose content is the badge's text; both read back from their positions |
| `StatusBadges.MissingStatusIsUnknown` | public/js/utils.js:90 | an absent or empty status renders `<span class="badge badge-info">Unknown</span>` |
| `StatusBadges.ClosedDependsOnContext` | public/js/utils.js:94-99 | a status whose lower case is `closed` is a green "Resolved" badge in the `issue` context, and a red badge with its own text in any other context |
| `StatusBadges.ClassIgnoresCase` | public/js/utils.js:94-117 | two statuses with the same lower-case form get the same class |
| `StatusBadges.UnlistedStatusIsInfo` | public/js/utils.js:117-118 | a status outside the table gets `badge-info` and its display text |
| `StatusBadges.Capitalize` | public/js/utils.js:118 | a word character with no word character before it is upper-cased; every other character is kept |
| `StatusBadges.DisplayText` | public/js/utils.js:118 | the display text has the status's length, a space for each `_`, an upper-cased letter at each word start, and every other character unchanged |
| `StatusBadges.ConstructorEscapesPalette` | public/js/utils.js:117 | as written, any spelling of `constructor` gets the class `function Object() { [native code] }`, which is outside the palette; the table lookup gives `badge-info` |
| `StatusBadges.ConstructorExample` | public/js/utils.js:117 | the status `Constructor` gets the class `function Object() { [native code] }` as written, outside the palette, where the table lookup gives `badge-info` |
| `StatusBadges.StatusBadgeAsWritten` | public/js/utils.js:89-120 | with the lookup as written, the badge class falls outside the palette exactly when the status is a spelling of `constructor` or `__proto__` |
| `StatusBadges.InheritedKeysEscapePalette` | public/js/utils.js:117 | the lookup as written yields a non-palette class exactly for the keys `constructor` and `__proto__` |
| `StatusBadges.AsWrittenAgreesElsewhere` | public/js/utils.js:117 | except for the two inherited keys `constructor` and `__proto__`, the lookup as written agrees with the table lookup |
| `TextFormat.TruncateText` | public/js/utils.js:142-146 | the limit is 100 when none is given; falsy text gives `''`; text within the limit is unchanged; longer text becomes its prefix of `max(limit, 0)` characters followed by `...`, so its length is that prefix length plus 3 |
| `TextFormat.DefaultLimit` | public/js/utils.js:142-146 | without a limit, a text of at most 100 characters is kept and a longer one becomes its first 100 characters and `...` |
| `TextFormat.TruncateBound` | public/js/utils.js:142-146 | the result is the text itself or at most the limit plus 3 characters long, and never more than 3 characters longer than the text |
| `TextFormat.EscapeChar` | public/js/utils.js:149-155 | a non-special character maps to itself; each special one maps to an entity starting with `&` |
| `TextFormat.EscapeConcat` | public/js/utils.js:156 | escaping a concatenation is the concatenation of the escapes |
| `TextFormat.EscapeHtml` | public/js/utils.js:148-157 | the output contains no `<`, `>`, `"` or `'` |
| `TextFormat.EscapeKeepsPlainText` | public/js/utils.js:156 | a text without the five special characters is returned unchanged |
| `TextFormat.EscapeGrows` | public/js/utils.js:148-157 | the output is at least as long as the input, and equally long exactly when the input has no special character |
| `TextFormat.UnescapeEscape` | public/js/utils.js:148-157 | decoding the five entities in the escaped text gives back the original text |
| `TextFormat.EscapeInjective` | public/js/utils.js:148-157 | different texts have different escapes |
| `Session.GetAuthToken` | public/js/auth.js:9-11 | the token is present exactly when the storage has a `token` entry, and is that entry's text |
| `Session.IsAuthenticated` | public/js/auth.js:42-44 | the session is authenticated exactly when a `token` entry exists and is not the empty string; its contents are not checked |
| `Session.AuthenticationIgnoresOtherKeys` | public/js/auth.js:9-11 | writing or removing any key other than `token` changes neither the token read back nor the authentication verdict |
| `Session.SetAuthToken` | public/js/auth.js:13-15 | afterwards the token reads back as given, the session is authenticated exactly when it is non-empty, and every other key is unchanged |
| `Session.RemoveAuthToken` | public/js/auth.js:17-19 | afterwards there is no token, the session is not authenticated, and every other key is unchanged |
| `Session.GetCurrentUser` | public/js/auth.js:25-32 | an absent, empty or unparsable user entry gives `null` without failing; a parsable one gives its parse |
| `Session.SetCurrentUser` | public/js/auth.js:34-36 | the user entry holds the JSON text of the record; the token and every other key are unchanged |
| `Session.CurrentUserRoundTrip` | public/js/auth.js:25-36 | with a faithful codec, reading the user back after storing it gives the same record |
| `Session.TokenAndUserIndependent` | public/js/auth.js:9-32 | setting or removing the token does not change the current user |
| `Session.UserWithoutToken` | public/js/auth.js:42-44 | storing a user without a token leaves the session unauthenticated |
| `Api.EncodeBody` | public/js/auth.js:66-68 | a truthy object or array body is replaced by its JSON text; any other body, `FormData` included, is passed through unchanged |
| `Api.BuildRequest` | public/js/auth.js:50-68 | the URL is base followed by path; `Content-Type` is always present, JSON unless the caller overrides it; `Authorization: Bearer <token>` is present when the token is truthy; caller headers override both defaults and nothing else is added; the body is serialised as `EncodeBody` says |
| `Api.RequestUrlUsesBase` | public/js/auth.js:51-52 | every request URL starts with the configured base URL and therefore with `http` |
| `Api.FormDataKeepsJsonContentType` | public/js/auth.js:55-68 | a `FormData` body is passed through, but it is still sent with `Content-Type: application/json` |
| `Api.SerialisedBodyRoundTrips` | public/js/auth.js:66-68 | with a faithful codec, a serialised body parses back to the value the caller gave |
| `Api.ClassifyResponse` | public/js/auth.js:70-86 | the parsed data is returned unchanged exactly when the body is declared and parses as JSON and the status is 2xx; a body not declared as JSON is an error with the raw text or `Request failed`, even on success; unparsable JSON is a SyntaxError; with a failing status, a `null` body throws the TypeError of reading `error` and any other body throws the `error` / `message` / status message |
| `JsText.NatText` | public/js/auth.js:83 | the status is printed as decimal digits that denote it, with no leading zero: one digit exactly below 10, and `0` only for zero |
| `Api.FailureMessage` | public/js/auth.js:83 | a truthy string `error` is the message verbatim, else a truthy string `message`; with neither, the message is `Request failed with status ` followed by the decimal digits that denote the status |
| `Api.ApiRequest` | public/js/auth.js:50-91 | the request sent is the one `BuildRequest` describes for the stored token (JSON `Content-Type` by default, caller headers, verb and encoded body); an authenticated session sends `Bearer <stored token>` unless the caller sets `Authorization`, an unauthenticated one sends no `Authorization`; the parsed data is returned exactly for a 2xx response declared and parsed as JSON, and every other outcome is the classified error, rethrown as it is |
| `Api.FailureMessageChoice` | public/js/auth.js:82-84 | a failing JSON response whose body is not `null` reports a truthy `error`, else a truthy `message`, else `Request failed with status N`; an array, string, number or boolean body always reports the status |
| `Api.NullErrorBody` | public/js/auth.js:82-83 | a failing response whose JSON body is `null` throws a TypeError on reading `error` |
| `Api.InvalidCredentialsExample` | public/js/auth.js:74-84 | status 401 with body `{"error":"invalid credentials"}` fails with exactly that message |
| `Api.PlainTextOkExample` | public/js/auth.js:74-80 | status 200 with a `text/plain` body `OK` fails with message `OK` |
| `Auth.DoLogin` | public/js/auth.js:97-116 | sends the request `apiRequest` builds for a POST of the credentials to base + `/auth/login`, with the stored token as bearer; a successful non-null reply is returned, an error of the request is rethrown unchanged, and a failure leaves storage unchanged; the token is written exactly when the reply has a truthy `token`, and the user exactly when it has a truthy `user`; no other key changes |
| `Auth.LoginInvalidCredentials` | public/js/auth.js:97-116 | a login rejected with status 401 and `{"error":"invalid credentials"}` fails with exactly that message and stores nothing |
| `Auth.DoSignup` | public/js/auth.js:122-140 | sends the request `apiRequest` builds for a POST of the registration data to base + `/auth/signup`; a successful non-null reply is returned and an error of the request is rethrown unchanged; never changes the token or the authentication state; writes the user only for a reply with a truthy `user`; a failure leaves storage unchanged |
| `Auth.Logout` | public/js/auth.js:146-150 | removes the token and the user, leaves every other key, and goes to `/login.html` |
| `Auth.RedirectToDashboard` | public/js/auth.js:156-163 | the destination is `/dashboard-<role>.html` exactly for the four known roles; every other value, an absent one included, gives `/login.html` |
| `Auth.RedirectExamples` | public/js/auth.js:156-163 | `admin` goes to its dashboard; `superuser` and an absent role go to the login page |
| `Auth.LoginThenLogout` | public/js/auth.js:97-150 | after a login reply with a non-empty string token the session is authenticated, and after logout it is not |
| `Auth.LoginStoresUser` | public/js/auth.js:104-109 | with a faithful codec, the user stored by a successful login reads back as the reply's `user` |
| `Auth.LogoutIdempotent` | public/js/auth.js:146-150 | logging out twice is the same as logging out once |
| `Config.ApiBaseUrl` | public/js/config.js:1-7 | the base URL is the override when it is defined and starts with `http`, otherwise the fixed production URL; it is always one of those two and always starts with `http` |

## Left out

- `formatDate` and `formatTime` are not modelled. They depend on the `Date` parser and locale formatting.
- `formatCurrency` is not modelled. It depends on `Intl` and floating-point numbers.
- `debounce` is not modelled. Its behaviour is timer scheduling with `setTimeout` and `clearTimeout`.
- `showAlert`, `showLoading` and `hideLoading` are not modelled. They are DOM mutations plus a timer.
- The `window.*` global exports are not modelled. They only publish the functions.
- `console.error` logging is not modelled.
- A rejected `fetch` is not modelled. `apiRequest` rethrows it unchanged, so there is nothing to classify; the response is an input to `ClassifyResponse`.
- The `async`/`await` sequencing is not modelled. Each flow is one function from the response to the outcome.
- The text format of JSON is not modelled. `JSON.parse` and `JSON.stringify` are opaque functions of a `Codec`.
- Validators.ValidatePassword: length is counted in Unicode scalar values, while JavaScript's `length` counts UTF-16 code units. The two differ only for characters outside the Basic Multilingual Plane.
- TextFormat.TruncateText: the same counting difference applies. A JavaScript cut that splits a surrogate pair cannot be expressed. A limit that is not an integer is not modelled. An explicit `null` limit is not modelled either: the default applies only to a missing argument, and JavaScript would compare against `null` as 0.
- StatusBadges.StatusBadge: `toLowerCase` is modelled as ASCII lower-casing. This is exact for the table lookup and the `closed` test. Only two non-ASCII characters lower-case to something containing an ASCII letter. KELVIN SIGN gives `k`, and no key contains `k`. U+0130 gives `i` followed by U+0307, which is not ASCII, so the result cannot equal any key.
- Json.ToJsString: JSON numbers are integers here. How `String` prints fractions, exponents and `-0` is not modelled.
- Api.BuildRequest: `options` holds only `method`, `headers` and `body`. The other `fetch` options (`credentials`, `mode`, `signal` and so on) that `{...options, headers}` forwards unchanged are not modelled.
- Api.BuildRequest: `options.headers` is a plain map with case-sensitive names, as in the object spread the code uses. A `Headers` instance as `options.headers` is not modelled.
- Api.EncodeBody: the caller's body is a JSON value or `FormData`. Other object bodies (`Blob`, `URLSearchParams`, `ArrayBuffer`) are not modelled. The code would pass them to `JSON.stringify`.
- Non-string arguments are not modelled: a number as status, `null` text passed to `escapeHtml`, or a non-string `NEXT_PUBLIC_API_URL`. The code throws a TypeError for the last two.
- Storage quota errors from `localStorage.setItem` are not modelled.

## Findings

| source | as written | input that shows it | evidently intended | confidence | as-written member | corrected member |
|---|---|---|---|---|---|---|
| public/js/utils.js:117 | `statusMap[statusKey] \|\| 'badge-info'` looks the key up on a plain object, so it also finds the lower-case properties inherited from `Object.prototype` | status `Constructor` in any context (`StatusBadges.ConstructorExample`) gives the class `function Object() { [native code] }`; `__proto__` gives `[object Object]` | a key outside the 13-entry table falls back to `badge-info` | high (by the language semantics; not executed) | `StatusBadges.StatusBadgeAsWritten` | `StatusBadges.StatusBadge` |

The rest of the model uses the corrected lookup `StatusBadges.ClassFor`,
which reads only the table's own entries. `StatusBadges.StatusBadgeAsWritten`
keeps the lookup as written, and `StatusBadges.ConstructorEscapesPalette`
exhibits the input.

=== FILE: api.dfy ===
/** `apiRequest` from public/js/auth.js, split at the network call: building
    the request that is handed to `fetch`, and turning the response `fetch`
    resolves to into the returned data or the thrown error. */
module Api {
  import opened Wrappers
  import opened JsText
  import opened Json
  import opened Session
  import Config

  /** The `body` a caller passes in `options`: nothing, a JavaScript value, or a
      `FormData` instance (its entries as name/value pairs). */
  datatype RequestBody = NoBody | JsBody(value: Json) | FormBody(entries: seq<(string, string)>)

  /** The body of the outgoing request: the caller's body as given, or the
      JSON text it was serialised to. */
  datatype Payload = AsGiven(body: RequestBody) | JsonText(text: string)

  /** The `options` argument: `method` (here `verb`; absent means `fetch`'s default),
      `headers` and `body`. */
  datatype RequestOptions = RequestOptions(verb: Option<string>, headers: map<string, string>, body: RequestBody)

  /** What is passed to `fetch`: the URL and the merged configuration. */
  datatype Request = Request(url: string, verb: Option<string>, headers: map<string, string>, body: Payload)

  /** The parts of a `Response` the code reads: the status, the
      `content-type` header (`null` when missing) and the body text. */
  datatype Response = Response(status: nat, contentType: Option<string>, text: string)

  /** What `apiRequest` throws: an `Error` with a message, the SyntaxError of
      `response.json()` on text that is not JSON, or the TypeError of reading
      a property of a `null` body. */
  datatype Exception = Error(message: string) | SyntaxError | TypeError(property: string)

  const ContentTypeHeader := "Content-Type"
  const AuthorizationHeader := "Authorization"
  const JsonMediaType := "application/json"

  /** The default headers before the caller's: JSON content type, and a bearer
      credential when the token is truthy. */
  function DefaultHeaders(token: Option<string>): map<string, string> {
    if token.Some? && token.value != "" then
      map[ContentTypeHeader := JsonMediaType, AuthorizationHeader := "Bearer " + token.value]
    else
      map[ContentTypeHeader := JsonMediaType]
  }

  /** The body handed to `fetch`: a truthy value of object type (object or
      array) is replaced by its JSON text; anything else, `FormData` included,
      goes through unchanged. */
  function EncodeBody(body: RequestBody, codec: Codec): (p: Payload)
    ensures body.JsBody? && IsTruthy(body.value) && IsObjectType(body.value) ==>
      p == JsonText(codec.stringify(body.value))
    ensures !(body.JsBody? && IsTruthy(body.value) && IsObjectType(body.value)) ==>
      p == AsGiven(body)
  {
    match body
    case JsBody(v) => if IsTruthy(v) && IsObjectType(v) then JsonText(codec.stringify(v)) else AsGiven(body)
    case _ => AsGiven(body)
  }

  /** The request `apiRequest` passes to `fetch` for `path` and `options`,
      given the configured base URL and the stored token. The URL is the base
      followed by the path with no separator handling; `Content-Type` is
      always sent, JSON unless the caller says otherwise, whatever the body;
      `Authorization` carries the token when it is truthy; every header the
      caller gives is sent as given, and nothing but those two is added. */
  function BuildRequest(base: string, path: string, token: Option<string>, options: RequestOptions, codec: Codec): (r: Request)
    ensures |r.url| == |base| + |path| && r.url[..|base|] == base && r.url[|base|..] == path
    ensures r.verb == options.verb
    ensures ContentTypeHeader in r.headers
    ensures r.headers[ContentTypeHeader] ==
      (if ContentTypeHeader in options.headers then options.headers[ContentTypeHeader] else JsonMediaType)
    ensures AuthorizationHeader in r.headers <==>
      AuthorizationHeader in options.headers || (token.Some? && token.value != "")
    ensures AuthorizationHeader !in options.headers && token.Some? && token.value != "" ==>
      r.headers[AuthorizationHeader] == "Bearer " + token.value
    ensures forall k :: k in options.headers ==> k in r.headers && r.headers[k] == options.headers[k]
    ensures forall k :: k in r.headers && k !in options.headers ==> k == ContentTypeHeader || k == AuthorizationHeader
    ensures r.body.JsonText? <==> options.body.JsBody? && IsTruthy(options.body.value) && IsObjectType(options.body.value)
    ensures r.body.JsonText? ==> r.body.text == codec.stringify(options.body.value)
    ensures r.body.AsGiven? ==> r.body.body == options.body
  {
    Request(base + path, options.verb, DefaultHeaders(token) + options.headers, EncodeBody(options.body, codec))
  }

  /** `response.ok`. */
  predicate IsOk(status: nat) {
    200 <= status <= 299
  }

  /** The start of the message when the body names no error. */
  const StatusFailure := "Request failed with status "

  /** The message of the error thrown for a JSON body with a failing status:
      `data.error || data.message || 'Request failed with status N'`. A string
      `error` or `message` is reported verbatim; otherwise the message is the
      fixed text followed by the status in decimal. */
  function FailureMessage(data: Json, status: nat): (m: string)
    requires !data.Null?
    ensures Truthy(Member(data, "error")) && Member(data, "error").value.Str? ==>
      m == Member(data, "error").value.s
    ensures !Truthy(Member(data, "error")) && Truthy(Member(data, "message")) && Member(data, "message").value.Str? ==>
      m == Member(data, "message").value.s
    ensures !Truthy(Member(data, "error")) && !Truthy(Member(data, "message")) ==>
      && |m| > |StatusFailure|
      && m[..|StatusFailure|] == StatusFailure
      && (forall i :: |StatusFailure| <= i < |m| ==> IsDigit(m[i]))
      && DigitsValue(m[|StatusFailure|..]) == status
      && m == StatusFailure + NatText(status)
  {
    var error := Member(data, "error");
    var message := Member(data, "message");
    if Truthy(error) then ToJsString(error.value)
    else if Truthy(message) then ToJsString(message.value)
    else
      var digits := NatText(status);
      var m := StatusFailure + digits;
      assert m[|StatusFailure|..] == digits;
      assert forall i :: |StatusFailure| <= i < |m| ==> m[i] == digits[i - |StatusFailure|];
      m
  }

  /** Whether the response declares a JSON body. */
  predicate DeclaresJson(response: Response) {
    response.contentType.Some? && Includes(response.contentType.value, JsonMediaType)
  }

  /** What `apiRequest` does with the response once `fetch` has resolved: the
      parsed data is returned unchanged exactly when the body is declared and
      parses as JSON and the status is successful; a body not declared as JSON
      is an error carrying the raw text, even with a successful status. */
  function ClassifyResponse(response: Response, codec: Codec): (r: Result<Json, Exception>)
    ensures r.Ok? <==> DeclaresJson(response) && IsOk(response.status) && codec.parse(response.text).Some?
    ensures r.Ok? ==> Some(r.value) == codec.parse(response.text)
    ensures !DeclaresJson(response) ==>
      r == Err(Error(if response.text == "" then "Request failed" else response.text))
    ensures DeclaresJson(response) && codec.parse(response.text).None? ==> r == Err(SyntaxError)
    ensures DeclaresJson(response) && !IsOk(response.status) && codec.parse(response.text) == Some(Null) ==>
      r == Err(TypeError("error"))
    ensures var data := codec.parse(response.text);
      DeclaresJson(response) && !IsOk(response.status) && data.Some? && !data.value.Null? ==>
        r == Err(Error(FailureMessage(data.value, response.status)))
  {
    if !DeclaresJson(response) then
      Err(Error(if response.text == "" then "Request failed" else response.text))
    else
      match codec.parse(response.text)
      case None => Err(SyntaxError)
      case Some(data) =>
        if IsOk(response.status) then Ok(data)
        else if data.Null? then Err(TypeError("error"))
        else Err(Error(FailureMessage(data, response.status)))
  }

  /** One call of `apiRequest`: the request it sends and what it returns or throws. */
  datatype Exchange = Exchange(request: Request, result: Result<Json, Exception>)

  /** `apiRequest(endpoint, options)` with the stored session: an
      authenticated session sends its token as the bearer credential unless
      the caller sets `Authorization`, an unauthenticated one sends none; the
      data is returned only for a successful JSON response. */
  function ApiRequest(base: string, path: string, st: Store, options: RequestOptions,
                      response: Response, codec: Codec): (e: Exchange)
    ensures e.request == BuildRequest(base, path, GetAuthToken(st), options, codec)
    ensures e.request.url == base + path
    ensures IsAuthenticated(st) && AuthorizationHeader !in options.headers ==>
      AuthorizationHeader in e.request.headers
    ensures IsAuthenticated(st) && AuthorizationHeader !in options.headers ==>
      e.request.headers[AuthorizationHeader] == "Bearer " + st[TokenKey]
    ensures !IsAuthenticated(st) && AuthorizationHeader !in options.headers ==>
      AuthorizationHeader !in e.request.headers
    ensures e.result.Ok? <==> DeclaresJson(response) && IsOk(response.status) && codec.parse(response.text).Some?
    ensures e.result.Ok? ==> codec.parse(response.text) == Some(e.result.value)
    ensures e.result.Err? ==> e.result == ClassifyResponse(response, codec)
  {
    Exchange(BuildRequest(base, path, GetAuthToken(st), options, codec), ClassifyResponse(response, codec))
  }

  // --- the request --------------------------------------------------------

  /** Every request goes to the configured base URL, which is an HTTP(S) URL
      whatever the override. */
  lemma RequestUrlUsesBase(override: Option<string>, path: string, token: Option<string>,
                           options: RequestOptions, codec: Codec)
    ensures var url := BuildRequest(Config.ApiBaseUrl(override), path, token, options, codec).url;
      StartsWith(url, "http") && StartsWith(url, Config.ApiBaseUrl(override))
  {
    var base := Config.ApiBaseUrl(override);
    var url := BuildRequest(base, path, token, options, codec).url;
    assert url[..4] == base[..4];
  }

  /** A `FormData` body is passed through, yet still under the default JSON
      content type unless the caller overrides it. */
  lemma FormDataKeepsJsonContentType(base: string, path: string, token: Option<string>,
                                     entries: seq<(string, string)>, codec: Codec)
    ensures var r := BuildRequest(base, path, token, RequestOptions(Some("POST"), map[], FormBody(entries)), codec);
      r.body == AsGiven(FormBody(entries)) && r.headers[ContentTypeHeader] == JsonMediaType
  {
  }

  /** With a faithful codec, a serialised body parses back to the value given. */
  lemma SerialisedBodyRoundTrips(body: RequestBody, codec: Codec)
    requires Faithful(codec)
    ensures EncodeBody(body, codec).JsonText? ==>
      body.JsBody? && codec.parse(EncodeBody(body, codec).text) == Some(body.value)
  {
    if body.JsBody? {
      assert codec.parse(codec.stringify(body.value)) == Some(body.value);
    }
  }

  // --- the response -------------------------------------------------------

  /** A failing status with a JSON body other than `null` reports the body's
      `error`, then its `message`, then the status. An array, string, number
      or boolean body has neither property, so it always reports the status;
      a `null` body fails earlier, when its `error` property is read. */
  lemma FailureMessageChoice(response: Response, data: Json, codec: Codec)
    requires DeclaresJson(response) && !IsOk(response.status)
    requires codec.parse(response.text) == Some(data) && !data.Null?
    ensures Truthy(Member(data, "error")) ==>
      ClassifyResponse(response, codec) == Err(Error(ToJsString(Member(data, "error").value)))
    ensures !Truthy(Member(data, "error")) && Truthy(Member(data, "message")) ==>
      ClassifyResponse(response, codec) == Err(Error(ToJsString(Member(data, "message").value)))
    ensures !Truthy(Member(data, "error")) && !Truthy(Member(data, "message")) ==>
      ClassifyResponse(response, codec) == Err(Error(StatusFailure + NatText(response.status)))
    ensures !data.Object? ==>
      ClassifyResponse(response, codec) == Err(Error(StatusFailure + NatText(response.status)))
  {
  }

  lemma NullErrorBody(response: Response, codec: Codec)
    requires DeclaresJson(response) && !IsOk(response.status)
    requires codec.parse(response.text) == Some(Null)
    ensures ClassifyResponse(response, codec) == Err(TypeError("error"))
  {
  }

  /** The example of a rejected login: status 401 and an `error` field. */
  lemma InvalidCredentialsExample(codec: Codec)
    requires codec.parse("{\"error\":\"invalid credentials\"}") == Some(Object(map["error" := Str("invalid credentials")]))
    ensures ClassifyResponse(Response(401, Some("application/json; charset=utf-8"), "{\"error\":\"invalid credentials\"}"), codec)
      == Err(Error("invalid credentials"))
  {
    var ct := "application/json; charset=utf-8";
    var text := "{\"error\":\"invalid credentials\"}";
    var data := Object(map["error" := Str("invalid credentials")]);
    assert StartsWith(ct[0..], JsonMediaType);
    assert DeclaresJson(Response(401, Some(ct), text));
    assert Member(data, "error") == Some(Str("invalid credentials"));
    assert FailureMessage(data, 401) == "invalid credentials";
  }

  /** The example of a plain-text body with status 200. */
  lemma PlainTextOkExample(codec: Codec)
    ensures ClassifyResponse(Response(200, Some("text/plain"), "OK"), codec) == Err(Error("OK"))
  {
  }
}

=== FILE: auth.dfy ===
/** The authentication flows of public/js/auth.js: `doLogin`, `doSignup`,
    `logout` and `redirectToDashboard`. The server's reply is an input, the
    updated storage and the navigation target are outputs. */
module Auth {
  import opened Wrappers
  import opened Json
  import opened Session
  import opened Api
  import opened JsText

  const LoginPath := "/auth/login"
  const SignupPath := "/auth/signup"
  const LoginPage := "/login.html"

  /** The roles that have a dashboard. */
  const Roles: seq<string> := ["student", "faculty", "maintenance", "admin"]

  /** The result of a login or signup: the request sent, the storage after
      the call, and what the call returned or threw. */
  datatype Outcome = Outcome(request: Request, store: Store, result: Result<Json, Exception>)

  /** The credentials object `{ email, password }` posted by `doLogin`. */
  function Credentials(email: string, password: string): Json {
    Object(map["email" := Str(email), "password" := Str(password)])
  }

  /** `doLogin(email, password)` against the server's `response`: on success
      the token is stored when the reply carries a truthy `token` (as its
      string form) and the user when it carries a truthy `user`. A failed
      request leaves the storage as it was. */
  function DoLogin(base: string, st: Store, email: string, password: string,
                   response: Response, codec: Codec): (o: Outcome)
    ensures o.request == BuildRequest(base, LoginPath, GetAuthToken(st),
                                      RequestOptions(Some("POST"), map[], JsBody(Credentials(email, password))), codec)
    ensures o.request.url == base + LoginPath && o.request.verb == Some("POST")
    ensures o.request.body == JsonText(codec.stringify(Credentials(email, password)))
    ensures IsAuthenticated(st) ==> AuthorizationHeader in o.request.headers
    ensures IsAuthenticated(st) ==>
      o.request.headers[AuthorizationHeader] == "Bearer " + GetAuthToken(st).value
    ensures o.result.Err? ==> o.store == st
    ensures ClassifyResponse(response, codec).Err? ==> o.result == ClassifyResponse(response, codec)
    ensures o.result.Ok? ==> ClassifyResponse(response, codec) == o.result && !o.result.value.Null?
    ensures ClassifyResponse(response, codec) == Ok(Null) ==> o.result == Err(TypeError(TokenKey))
    ensures ClassifyResponse(response, codec).Ok? && !ClassifyResponse(response, codec).value.Null? ==>
      o.result == ClassifyResponse(response, codec)
    ensures o.result.Ok? && Truthy(Member(o.result.value, TokenKey)) ==>
      GetAuthToken(o.store) == Some(ToJsString(Member(o.result.value, TokenKey).value))
    ensures !(o.result.Ok? && Truthy(Member(o.result.value, TokenKey))) ==>
      GetAuthToken(o.store) == GetAuthToken(st)
    ensures o.result.Ok? && Truthy(Member(o.result.value, UserKey)) ==>
      GetItem(o.store, UserKey) == Some(codec.stringify(Member(o.result.value, UserKey).value))
    ensures !(o.result.Ok? && Truthy(Member(o.result.value, UserKey))) ==>
      GetItem(o.store, UserKey) == GetItem(st, UserKey)
    ensures o.store - {TokenKey, UserKey} == st - {TokenKey, UserKey}
  {
    var exchange := ApiRequest(base, LoginPath, st,
                               RequestOptions(Some("POST"), map[], JsBody(Credentials(email, password))), response, codec);
    match exchange.result
    case Err(e) => Outcome(exchange.request, st, Err(e))
    case Ok(data) =>
      if data.Null? then Outcome(exchange.request, st, Err(TypeError(TokenKey)))
      else
        var token := Member(data, TokenKey);
        var st1 := if Truthy(token) then SetAuthToken(st, ToJsString(token.value)) else st;
        var user := Member(data, UserKey);
        var st2 := if Truthy(user) then SetCurrentUser(st1, user.value, codec) else st1;
        Outcome(exchange.request, st2, Ok(data))
  }

  /** `doSignup(userData)`: posts the registration data and stores the user
      when the reply carries a truthy `user`. It never touches the token. */
  function DoSignup(base: string, st: Store, userData: RequestBody,
                    response: Response, codec: Codec): (o: Outcome)
    ensures o.request == BuildRequest(base, SignupPath, GetAuthToken(st), RequestOptions(Some("POST"), map[], userData), codec)
    ensures o.request.url == base + SignupPath && o.request.verb == Some("POST")
    ensures o.result.Err? ==> o.store == st
    ensures ClassifyResponse(response, codec).Err? ==> o.result == ClassifyResponse(response, codec)
    ensures o.result.Ok? ==> ClassifyResponse(response, codec) == o.result && !o.result.value.Null?
    ensures ClassifyResponse(response, codec) == Ok(Null) ==> o.result == Err(TypeError(UserKey))
    ensures ClassifyResponse(response, codec).Ok? && !ClassifyResponse(response, codec).value.Null? ==>
      o.result == ClassifyResponse(response, codec)
    ensures GetAuthToken(o.store) == GetAuthToken(st)
    ensures IsAuthenticated(o.store) <==> IsAuthenticated(st)
    ensures o.result.Ok? && Truthy(Member(o.result.value, UserKey)) ==>
      GetItem(o.store, UserKey) == Some(codec.stringify(Member(o.result.value, UserKey).value))
    ensures !(o.result.Ok? && Truthy(Member(o.result.value, UserKey))) ==> o.store == st
    ensures o.store - {UserKey} == st - {UserKey}
  {
    var exchange := ApiRequest(base, SignupPath, st, RequestOptions(Some("POST"), map[], userData), response, codec);
    match exchange.result
    case Err(e) => Outcome(exchange.request, st, Err(e))
    case Ok(data) =>
      if data.Null? then Outcome(exchange.request, st, Err(TypeError(UserKey)))
      else
        var user := Member(data, UserKey);
        var st1 := if Truthy(user) then SetCurrentUser(st, user.value, codec) else st;
        Outcome(exchange.request, st1, Ok(data))
  }

  /** `logout`: forget the token and the user, then go to the login page. */
  function Logout(st: Store): (out: (Store, string))
    ensures TokenKey !in out.0 && UserKey !in out.0
    ensures !IsAuthenticated(out.0)
    ensures forall k :: k != TokenKey && k != UserKey ==>
      (k in out.0 <==> k in st) && (k in st ==> out.0[k] == st[k])
    ensures out.1 == LoginPage
  {
    (st - {TokenKey, UserKey}, LoginPage)
  }

  /** `redirectToDashboard(role)`: the role's dashboard for the four known
      roles; every other value, a missing role included, goes to the login
      page. */
  function RedirectToDashboard(role: Option<string>): (dest: string)
    ensures dest != LoginPage <==> role.Some? && role.value in Roles
    ensures role.Some? && role.value in Roles ==> dest == "/dashboard-" + role.value + ".html"
  {
    if role.Some? && role.value in Roles then
      var dest := "/dashboard-" + role.value + ".html";
      assert dest[1] == 'd' && LoginPage[1] == 'l';
      dest
    else LoginPage
  }

  // --- properties relating several steps ----------------------------------

  /** After a login whose reply carries a non-empty string token the session is
      authenticated; after logging out it is not. */
  lemma LoginThenLogout(base: string, st: Store, email: string, password: string,
                        response: Response, codec: Codec, token: string)
    requires DoLogin(base, st, email, password, response, codec).result.Ok?
    requires Member(DoLogin(base, st, email, password, response, codec).result.value, TokenKey) == Some(Str(token))
    requires token != ""
    ensures IsAuthenticated(DoLogin(base, st, email, password, response, codec).store)
    ensures !IsAuthenticated(Logout(DoLogin(base, st, email, password, response, codec).store).0)
  {
  }

  /** With a faithful codec the user stored by a successful login reads back
      as the reply's `user` record. */
  lemma LoginStoresUser(base: string, st: Store, email: string, password: string,
                        response: Response, codec: Codec)
    requires Faithful(codec)
    requires DoLogin(base, st, email, password, response, codec).result.Ok?
    requires Truthy(Member(DoLogin(base, st, email, password, response, codec).result.value, UserKey))
    ensures var o := DoLogin(base, st, email, password, response, codec);
      GetCurrentUser(o.store, codec) == Member(o.result.value, UserKey).value
  {
    var o := DoLogin(base, st, email, password, response, codec);
    var user := Member(o.result.value, UserKey).value;
    assert codec.parse(codec.stringify(user)) == Some(user) && codec.stringify(user) != "";
  }

  /** A login the server rejects with status 401 and an `error` field fails
      with exactly that message and stores nothing. */
  lemma LoginInvalidCredentials(base: string, st: Store, email: string, password: string, codec: Codec)
    requires codec.parse("{\"error\":\"invalid credentials\"}") == Some(Object(map["error" := Str("invalid credentials")]))
    ensures var o := DoLogin(base, st, email, password,
                             Response(401, Some(JsonMediaType), "{\"error\":\"invalid credentials\"}"), codec);
      o.result == Err(Error("invalid credentials")) && o.store == st
  {
    assert StartsWith(JsonMediaType[0..], JsonMediaType);
  }

  /** Logging out twice is the same as logging out once. */
  lemma LogoutIdempotent(st: Store)
    ensures Logout(Logout(st).0) == Logout(st)
  {
    var once := Logout(st).0;
    assert once - {TokenKey, UserKey} == once;
  }

  /** The examples of a known role and of two unknown ones. */
  lemma RedirectExamples()
    ensures RedirectToDashboard(Some("admin")) == "/dashboard-admin.html"
    ensures RedirectToDashboard(Some("superuser")) == LoginPage
    ensures RedirectToDashboard(None) == LoginPage
  {
    assert "admin" == Roles[3];
    assert "superuser" !in Roles by {
      assert |"superuser"| == 9;
    }
  }
}

=== FILE: config.dfy ===
/** The start-up script of public/js/config.js, which fixes the base URL of
    every API request: an injected override when it looks like an HTTP URL,
    otherwise the production backend. There is no other choice. */
module Config {
  import opened Wrappers
  import opened JsText

  const ProductionHost := "smartcampussystem-backend-production.up.railway.app"

  /** The production backend. */
  const ProductionUrl := "https://" + ProductionHost + "/api"

  /** `API_BASE_URL` as a function of `NEXT_PUBLIC_API_URL` (`None` when it
      is undefined). */
  function ApiBaseUrl(override: Option<string>): (url: string)
    ensures override.Some? && StartsWith(override.value, "http") ==> url == override.value
    ensures override.None? || !StartsWith(override.value, "http") ==> url == ProductionUrl
    ensures url == ProductionUrl || (override.Some? && url == override.value)
    ensures StartsWith(url, "http")
  {
    if override.Some? && StartsWith(override.value, "http") then override.value
    else ProductionUrl
  }
}

=== FILE: js_text.dfy ===
/** The pieces of JavaScript's string semantics the front end relies on:
    the `\s` and `\w` character classes, `trim`, `includes`, `startsWith`,
    ASCII case mapping and the decimal rendering of integers. */
module JsText {

  /** ECMAScript WhiteSpace and LineTerminator code points: exactly what the
      regular-expression class `\s` matches and what `String.prototype.trim`
      strips. */
  predicate IsSpace(c: char) {
    || c == '\t' || c == '\n' || c == '\U{000B}' || c == '\U{000C}' || c == '\r'
    || c == ' ' || c == '\U{00A0}' || c == '\U{1680}'
    || ('\U{2000}' <= c <= '\U{200A}')
    || c == '\U{2028}' || c == '\U{2029}' || c == '\U{202F}' || c == '\U{205F}'
    || c == '\U{3000}' || c == '\U{FEFF}'
  }

  /** The regular-expression class `\w`: `[A-Za-z0-9_]`. */
  predicate IsWordChar(c: char) {
    ('a' <= c <= 'z') || ('A' <= c <= 'Z') || ('0' <= c <= '9') || c == '_'
  }

  predicate IsAsciiUpper(c: char) { 'A' <= c <= 'Z' }

  predicate IsAsciiLower(c: char) { 'a' <= c <= 'z' }

  predicate IsDigit(c: char) { '0' <= c <= '9' }

  function ToUpperAscii(c: char): char {
    if IsAsciiLower(c) then (c as int - 32) as char else c
  }

  function ToLowerAscii(c: char): char {
    if IsAsciiUpper(c) then (c as int + 32) as char else c
  }

  /** `s.toLowerCase()` restricted to ASCII letters; every other character is kept. */
  function LowerAscii(s: string): (r: string)
    ensures |r| == |s|
    ensures forall i :: 0 <= i < |s| ==> r[i] == ToLowerAscii(s[i])
  {
    seq(|s|, i requires 0 <= i < |s| => ToLowerAscii(s[i]))
  }

  /** Number of whitespace characters at the start of `s`. */
  function LeadingSpaces(s: string): (n: nat)
    ensures n <= |s|
    ensures forall i :: 0 <= i < n ==> IsSpace(s[i])
    ensures n == |s| || !IsSpace(s[n])
  {
    if |s| > 0 && IsSpace(s[0]) then 1 + LeadingSpaces(s[1..]) else 0
  }

  /** Number of whitespace characters at the end of `s`. */
  function TrailingSpaces(s: string): (n: nat)
    ensures n <= |s|
    ensures forall i :: |s| - n <= i < |s| ==> IsSpace(s[i])
    ensures n == |s| || !IsSpace(s[|s| - 1 - n])
  {
    if |s| > 0 && IsSpace(s[|s| - 1]) then 1 + TrailingSpaces(s[..|s| - 1]) else 0
  }

  /** `String.prototype.trim`: `s` without its leading and trailing whitespace. */
  function Trim(s: string): (r: string)
    ensures LeadingSpaces(s) + |r| <= |s|
    ensures r == s[LeadingSpaces(s)..LeadingSpaces(s) + |r|]
    ensures forall i :: 0 <= i < LeadingSpaces(s) ==> IsSpace(s[i])
    ensures forall i :: LeadingSpaces(s) + |r| <= i < |s| ==> IsSpace(s[i])
    ensures r == [] || (!IsSpace(r[0]) && !IsSpace(r[|r| - 1]))
  {
    var rest := s[LeadingSpaces(s)..];
    var r := rest[..|rest| - TrailingSpaces(rest)];
    assert forall i :: LeadingSpaces(s) + |r| <= i < |s| ==> s[i] == rest[i - LeadingSpaces(s)];
    r
  }

  predicate StartsWith(s: string, prefix: string) {
    |prefix| <= |s| && s[..|prefix|] == prefix
  }

  /** `s.includes(part)`, computed by trying every start position in turn. */
  function Includes(s: string, part: string): (b: bool)
    ensures b <==> exists i :: 0 <= i <= |s| - |part| && StartsWith(s[i..], part)
  {
    if StartsWith(s, part) then
      assert StartsWith(s[0..], part);
      true
    else if |s| <= |part| then
      false
    else
      var b := Includes(s[1..], part);
      if b then
        var i :| 0 <= i <= |s[1..]| - |part| && StartsWith(s[1..][i..], part);
        assert s[1..][i..] == s[i + 1..];
        true
      else
        assert forall i :: 1 <= i <= |s| - |part| ==> s[i..] == s[1..][i - 1..];
        false
  }

  /** The number a string of decimal digits denotes, most significant first. */
  function DigitsValue(r: string): nat
    requires forall i :: 0 <= i < |r| ==> IsDigit(r[i])
    decreases |r|
  {
    if r == [] then 0
    else
      assert IsDigit(r[|r| - 1]);
      10 * DigitsValue(r[..|r| - 1]) + ((r[|r| - 1] as int) - ('0' as int))
  }

  /** The decimal digits of `n`, most significant first, as `String(n)` prints
      them: they denote `n`, and there is no leading zero. */
  function NatText(n: nat): (r: string)
    ensures |r| > 0
    ensures forall i :: 0 <= i < |r| ==> IsDigit(r[i])
    ensures DigitsValue(r) == n
    ensures r[0] == '0' <==> n == 0
    ensures |r| == 1 <==> n < 10
    decreases n
  {
    var d := ['0' + (n % 10) as char];
    assert (d[0] as int) - ('0' as int) == n % 10;
    if n < 10 then
      assert d[..0] == [];
      d
    else
      var high := NatText(n / 10);
      var r := high + d;
      assert r[..|r| - 1] == high;
      assert r[0] == high[0];
      r
  }

  /** `String(n)` for an integer `n`. */
  function IntText(n: int): string {
    if n < 0 then "-" + NatText(-n) else NatText(n)
  }
}

=== FILE: json.dfy ===
/** JSON values as the front end sees them after `JSON.parse`, together with
    the three JavaScript operations the code applies to them: truthiness,
    property reads and conversion to a string. The text form of JSON is not
    modelled: `JSON.parse` and `JSON.stringify` are carried as opaque functions
    in a `Codec`. */
module Json {
  import opened Wrappers
  import JsText

  /** A parsed JSON value. Numbers are integers (see README, "Left out"). */
  datatype Json =
    | Null
    | Bool(b: bool)
    | Number(n: int)
    | Str(s: string)
    | Array(items: seq<Json>)
    | Object(fields: map<string, Json>)

  /** `JSON.parse` (partial: `None` where it would throw a SyntaxError) and
      `JSON.stringify`, supplied by the environment. */
  datatype Codec = Codec(parse: string -> Option<Json>, stringify: Json -> string)

  /** A codec whose parser reads back what its printer writes, and whose
      printer never produces the empty string (JSON text is never empty). */
  ghost predicate Faithful(codec: Codec) {
    forall v: Json {:trigger codec.stringify(v)} ::
      codec.parse(codec.stringify(v)) == Some(v) && codec.stringify(v) != ""
  }

  /** JavaScript truthiness of a JSON value. */
  predicate IsTruthy(v: Json) {
    match v
    case Null => false
    case Bool(b) => b
    case Number(n) => n != 0
    case Str(s) => s != ""
    case Array(_) => true
    case Object(_) => true
  }

  /** Truthiness of a property read, where `None` is `undefined`. */
  predicate Truthy(p: Option<Json>) {
    p.Some? && IsTruthy(p.value)
  }

  /** `typeof v === 'object'`, which holds for arrays, objects and `null`. */
  predicate IsObjectType(v: Json) {
    v.Null? || v.Array? || v.Object?
  }

  /** `v[key]` for a value that is not `null`: only objects carry the
      properties the front end reads; on strings, numbers, booleans and arrays
      they are `undefined`. Reading a property of `null` throws a TypeError,
      which each caller models before calling this. */
  function Member(v: Json, key: string): (p: Option<Json>)
    ensures p.Some? <==> v.Object? && key in v.fields
    ensures p.Some? ==> p.value == v.fields[key]
  {
    match v
    case Object(fields) => if key in fields then Some(fields[key]) else None
    case _ => None
  }

  /** `String(v)`: what `new Error(v)` keeps as its message and what
      `localStorage.setItem` stores. */
  function ToJsString(v: Json): string
    decreases v
  {
    match v
    case Null => "null"
    case Bool(b) => if b then "true" else "false"
    case Number(n) => JsText.IntText(n)
    case Str(s) => s
    case Array(items) =>
      Join(seq(|items|, i requires 0 <= i < |items| =>
        if items[i].Null? then "" else ToJsString(items[i])))
    case Object(_) => "[object Object]"
  }

  /** `Array.prototype.join` with the default separator. */
  function Join(parts: seq<string>): string {
    if |parts| == 0 then ""
    else if |parts| == 1 then parts[0]
    else parts[0] + "," + Join(parts[1..])
  }
}

=== FILE: session.dfy ===
/** Token and user management from public/js/auth.js. The browser's
    `localStorage` is a map from keys to string values; each operation that
    writes returns the new map. */
module Session {
  import opened Wrappers
  import opened Json

  type Store = map<string, string>

  const TokenKey := "token"
  const UserKey := "user"

  /** `localStorage.getItem(key)`: the stored text, or `null` when absent. */
  function GetItem(st: Store, key: string): (v: Option<string>)
    ensures v.Some? <==> key in st
    ensures v.Some? ==> v.value == st[key]
  {
    if key in st then Some(st[key]) else None
  }

  /** `getAuthToken`: the token entry, and nothing else of the storage. */
  function GetAuthToken(st: Store): (t: Option<string>)
    ensures t.Some? <==> TokenKey in st
    ensures t.Some? ==> t.value == st[TokenKey]
  {
    GetItem(st, TokenKey)
  }

  /** `setAuthToken(token)`. */
  function SetAuthToken(st: Store, token: string): (st': Store)
    ensures GetAuthToken(st') == Some(token)
    ensures IsAuthenticated(st') <==> token != ""
    ensures st' - {TokenKey} == st - {TokenKey}
  {
    st[TokenKey := token]
  }

  /** `removeAuthToken`. */
  function RemoveAuthToken(st: Store): (st': Store)
    ensures GetAuthToken(st') == None
    ensures !IsAuthenticated(st')
    ensures st' - {TokenKey} == st - {TokenKey}
  {
    st - {TokenKey}
  }

  /** `isAuthenticated`: `!!getAuthToken()`, a stored token that is not empty.
      Nothing about the token itself is checked. */
  predicate IsAuthenticated(st: Store)
    ensures IsAuthenticated(st) <==> TokenKey in st && st[TokenKey] != ""
  {
    var token := GetAuthToken(st);
    token.Some? && token.value != ""
  }

  /** `getCurrentUser`: the parsed user record, or `null` when the key is
      absent, holds the empty string, or does not parse. It never throws. */
  function GetCurrentUser(st: Store, codec: Codec): (user: Json)
    ensures UserKey !in st || st[UserKey] == "" || codec.parse(st[UserKey]).None? ==> user == Null
    ensures UserKey in st && st[UserKey] != "" && codec.parse(st[UserKey]).Some? ==>
      user == codec.parse(st[UserKey]).value
  {
    match GetItem(st, UserKey)
    case None => Null
    case Some(text) =>
      if text == "" then Null
      else codec.parse(text).GetOr(Null)
  }

  /** `setCurrentUser(user)`: stores the JSON text of the record. */
  function SetCurrentUser(st: Store, user: Json, codec: Codec): (st': Store)
    ensures GetItem(st', UserKey) == Some(codec.stringify(user))
    ensures GetAuthToken(st') == GetAuthToken(st)
    ensures st' - {UserKey} == st - {UserKey}
  {
    st[UserKey := codec.stringify(user)]
  }

  /** With a faithful JSON codec the user record reads back as it was stored. */
  lemma CurrentUserRoundTrip(st: Store, user: Json, codec: Codec)
    requires Faithful(codec)
    ensures GetCurrentUser(SetCurrentUser(st, user, codec), codec) == user
  {
    assert codec.parse(codec.stringify(user)) == Some(user) && codec.stringify(user) != "";
  }

  /** Only the token entry decides authentication: writing or removing any
      other key, the user included, changes neither the token nor the verdict. */
  lemma AuthenticationIgnoresOtherKeys(st: Store, k: string, v: string)
    requires k != TokenKey
    ensures GetAuthToken(st[k := v]) == GetAuthToken(st) && GetAuthToken(st - {k}) == GetAuthToken(st)
    ensures IsAuthenticated(st[k := v]) == IsAuthenticated(st)
    ensures IsAuthenticated(st - {k}) == IsAuthenticated(st)
  {
  }

  /** Token and user live under different keys: writing one leaves the other. */
  lemma TokenAndUserIndependent(st: Store, token: string, codec: Codec)
    ensures GetCurrentUser(SetAuthToken(st, token), codec) == GetCurrentUser(st, codec)
    ensures GetCurrentUser(RemoveAuthToken(st), codec) == GetCurrentUser(st, codec)
  {
  }

  /** A stored user without a token is a valid, unauthenticated state. */
  lemma UserWithoutToken(st: Store, user: Json, codec: Codec)
    requires TokenKey !in st
    ensures !IsAuthenticated(SetCurrentUser(st, user, codec))
  {
  }
}

=== FILE: status_badges.dfy ===
/** `getStatusBadge` from public/js/utils.js: the colour class and the display
    text of the badge shown for a status keyword, and the HTML it renders. */
module StatusBadges {
  import opened Wrappers
  import opened JsText

  /** A badge before rendering: its CSS class and its text. */
  datatype Badge = Badge(cls: string, text: string)

  const Success := "badge-success"
  const Warning := "badge-warning"
  const Danger := "badge-danger"
  const Info := "badge-info"

  /** The four colour classes the table uses. */
  const Palette: set<string> := {Success, Warning, Danger, Info}

  /** The 13-entry lookup table from lower-cased status to class. */
  const StatusClasses: map<string, string> := map[
    "active" := Success,
    "pending" := Warning,
    "approved" := Success,
    "rejected" := Danger,
    "cancelled" := Danger,
    "in_progress" := Info,
    "resolved" := Success,
    "closed" := Danger,
    "available" := Success,
    "unavailable" := Danger,
    "occupied" := Warning,
    "under_maintenance" := Warning,
    "reserved" := Info
  ]

  /** The context in which a closed status means a finished piece of work. */
  const IssueContext := "issue"

  /** `status.replace(/_/g, ' ')`. */
  function UnderscoresToSpaces(s: string): (r: string)
    ensures |r| == |s|
    ensures forall i :: 0 <= i < |s| ==> r[i] == (if s[i] == '_' then ' ' else s[i])
  {
    seq(|s|, i requires 0 <= i < |s| => if s[i] == '_' then ' ' else s[i])
  }

  /** Position `i` of `s` is where `\b\w` matches: a word character with no
      word character right before it. */
  predicate WordStart(s: string, i: int)
    requires 0 <= i < |s|
  {
    IsWordChar(s[i]) && (i == 0 || !IsWordChar(s[i - 1]))
  }

  /** Whether the character before position `i` is a word character, where
      `afterWord` stands for the character before the start of `s`. */
  predicate WordBefore(s: string, i: int, afterWord: bool)
    requires 0 <= i <= |s|
  {
    if i == 0 then afterWord else IsWordChar(s[i - 1])
  }

  /** `.replace(/\b\w/g, l => l.toUpperCase())`, scanning left to right and
      remembering whether the previous character was a word character. */
  function Capitalize(s: string, afterWord: bool): (r: string)
    ensures |r| == |s|
    ensures forall i :: 0 <= i < |s| ==>
      r[i] == (if IsWordChar(s[i]) && !WordBefore(s, i, afterWord) then ToUpperAscii(s[i]) else s[i])
    decreases |s|
  {
    if s == [] then []
    else
      var c := if IsWordChar(s[0]) && !afterWord then ToUpperAscii(s[0]) else s[0];
      var rest := s[1..];
      var tail := Capitalize(rest, IsWordChar(s[0]));
      var r := [c] + tail;
      forall i | 0 <= i < |s|
        ensures r[i] == (if IsWordChar(s[i]) && !WordBefore(s, i, afterWord) then ToUpperAscii(s[i]) else s[i])
      {
        if i > 0 {
          assert r[i] == tail[i - 1] && s[i] == rest[i - 1];
          assert WordBefore(s, i, afterWord) == WordBefore(rest, i - 1, IsWordChar(s[0]));
        }
      }
      r
  }

  /** The badge text for a status: every character is kept, except that `_`
      becomes a space and a letter starting a word becomes upper case. */
  function DisplayText(status: string): (r: string)
    ensures |r| == |status|
    ensures forall i :: 0 <= i < |status| ==>
      r[i] ==
        (if status[i] == '_' then ' '
         else if WordStart(UnderscoresToSpaces(status), i) then ToUpperAscii(status[i])
         else status[i])
  {
    var t := UnderscoresToSpaces(status);
    var r := Capitalize(t, false);
    forall i | 0 <= i < |status|
      ensures r[i] ==
        (if status[i] == '_' then ' '
         else if WordStart(t, i) then ToUpperAscii(status[i])
         else status[i])
    {
      assert t[i] == (if status[i] == '_' then ' ' else status[i]);
      assert r[i] == (if IsWordChar(t[i]) && !WordBefore(t, i, false) then ToUpperAscii(t[i]) else t[i]);
    }
    r
  }

  /** Class lookup with the `|| 'badge-info'` fallback, on own table entries only. */
  function ClassFor(key: string): (cls: string)
    ensures key in StatusClasses ==> cls == StatusClasses[key]
    ensures key !in StatusClasses ==> cls == Info
    ensures cls in Palette
  {
    if key in StatusClasses then StatusClasses[key] else Info
  }

  /** `getStatusBadge(status, context)` before rendering: the class is always
      one of the four colours, and apart from a closed issue's "Resolved" the
      text is as long as the status it shows. */
  function StatusBadge(status: Option<string>, context: string): (b: Badge)
    ensures b.cls in Palette
    ensures status.None? || status.value == "" ==> b.text == "Unknown"
    ensures status.Some? && status.value != "" ==> b.text == "Resolved" || |b.text| == |status.value|
    ensures status.Some? && status.value != "" && !(LowerAscii(status.value) == "closed" && context == IssueContext) ==>
      b == Badge(ClassFor(LowerAscii(status.value)), DisplayText(status.value))
  {
    if status.None? || status.value == "" then Badge(Info, "Unknown")
    else
      var key := LowerAscii(status.value);
      if key == "closed" && context == IssueContext then Badge(Success, "Resolved")
      else Badge(ClassFor(key), DisplayText(status.value))
  }

  const SpanOpen := "<span class=\"badge "
  const ClassEnd := "\">"
  const SpanClose := "</span>"

  /** The `<span>` element the function returns: the opening tag with the
      class, then the text, then the closing tag. Class and text read back
      from their positions. */
  function RenderBadge(b: Badge): (html: string)
    ensures |html| == |SpanOpen| + |b.cls| + |ClassEnd| + |b.text| + |SpanClose|
    ensures html[..|SpanOpen|] == SpanOpen
    ensures html[|SpanOpen|..|SpanOpen| + |b.cls|] == b.cls
    ensures html[|SpanOpen| + |b.cls|..|SpanOpen| + |b.cls| + |ClassEnd|] == ClassEnd
    ensures html[|SpanOpen| + |b.cls| + |ClassEnd|..|html| - |SpanClose|] == b.text
    ensures html[|html| - |SpanClose|..] == SpanClose
  {
    var html := SpanOpen + b.cls + ClassEnd + b.text + SpanClose;
    var a := |SpanOpen|;
    var c := a + |b.cls|;
    var t := c + |ClassEnd|;
    assert html[..a] == SpanOpen;
    assert html[a..c] == b.cls;
    assert html[c..t] == ClassEnd;
    assert html[t..|html| - |SpanClose|] == b.text;
    html
  }

  /** Every palette class starts with `badge-`. */
  lemma PaletteClassShape(cls: string)
    requires cls in Palette
    ensures |cls| >= 6 && cls[..6] == "badge-"
  {
  }

  /** `getStatusBadge(status, context)`: a `<span>` element whose class
      attribute is `badge` and the badge's colour class, always one starting
      with `badge-`, and whose content is the badge's text. */
  function GetStatusBadge(status: Option<string>, context: string): (html: string)
    ensures var b := StatusBadge(status, context);
      && |html| == |SpanOpen| + |b.cls| + |ClassEnd| + |b.text| + |SpanClose|
      && html[..|SpanOpen|] == SpanOpen
      && html[|SpanOpen|..|SpanOpen| + |b.cls|] == b.cls
      && html[|SpanOpen| + |b.cls|..|SpanOpen| + |b.cls| + |ClassEnd|] == ClassEnd
      && html[|SpanOpen| + |b.cls| + |ClassEnd|..|html| - |SpanClose|] == b.text
      && html[|html| - |SpanClose|..] == SpanClose
    ensures html[..|SpanOpen| + 6] == SpanOpen + "badge-"
  {
    var b := StatusBadge(status, context);
    PaletteClassShape(b.cls);
    var html := RenderBadge(b);
    assert html[..|SpanOpen| + 6] == html[..|SpanOpen|] + html[|SpanOpen|..|SpanOpen| + |b.cls|][..6];
    html
  }

  // --- properties -------------------------------------------------------

  /** A missing or empty status renders as an informational "Unknown". */
  lemma MissingStatusIsUnknown(status: Option<string>, context: string)
    requires status.None? || status.value == ""
    ensures StatusBadge(status, context) == Badge(Info, "Unknown")
    ensures GetStatusBadge(status, context) == "<span class=\"badge badge-info\">Unknown</span>"
  {
    assert StatusBadge(status, context) == Badge(Info, "Unknown");
    UnknownBadgeHtml();
  }

  /** The HTML of the "Unknown" badge, spelled out. */
  lemma UnknownBadgeHtml()
    ensures RenderBadge(Badge(Info, "Unknown")) == "<span class=\"badge badge-info\">Unknown</span>"
  {
    UnknownBadgeText();
    assert RenderBadge(Badge(Info, "Unknown")) == SpanOpen + Info + ClassEnd + "Unknown" + SpanClose;
  }

  lemma UnknownBadgeText()
    ensures SpanOpen + Info + ClassEnd + "Unknown" + SpanClose == "<span class=\"badge badge-info\">Unknown</span>"
  {
  }

  /** A closed issue is shown as a green "Resolved"; in any other context a
      closed status is red and keeps its own spelling. */
  lemma ClosedDependsOnContext(status: string, context: string)
    requires LowerAscii(status) == "closed"
    ensures context == IssueContext ==> StatusBadge(Some(status), context) == Badge(Success, "Resolved")
    ensures context != IssueContext ==>
      StatusBadge(Some(status), context) == Badge(Danger, DisplayText(status))
  {
  }

  /** The colour depends on the status only through its lower-cased form. */
  lemma ClassIgnoresCase(s1: string, s2: string, context: string)
    requires s1 != "" && s2 != ""
    requires LowerAscii(s1) == LowerAscii(s2)
    ensures StatusBadge(Some(s1), context).cls == StatusBadge(Some(s2), context).cls
  {
  }

  /** A keyword outside the table is informational and shown as written. */
  lemma UnlistedStatusIsInfo(status: string, context: string)
    requires status != "" && LowerAscii(status) !in StatusClasses
    ensures StatusBadge(Some(status), context) == Badge(Info, DisplayText(status))
  {
  }

  // --- the lookup as written --------------------------------------------

  /** `statusMap[statusKey] || 'badge-info'` as JavaScript evaluates it: the
      table is a plain object, so a key it does not own is looked up on
      `Object.prototype`. Of that prototype's properties only `constructor`
      and `__proto__` are spelled in lower case, and both are truthy; their
      string forms land in the class attribute. */
  function ClassForAsWritten(key: string): string {
    if key in StatusClasses then StatusClasses[key]
    else if key == "constructor" then "function Object() { [native code] }"
    else if key == "__proto__" then "[object Object]"
    else Info
  }

  /** `getStatusBadge` before rendering, with the lookup as written: the class
      leaves the palette exactly for the spellings of the two inherited keys. */
  function StatusBadgeAsWritten(status: Option<string>, context: string): (b: Badge)
    ensures b.cls !in Palette <==>
      status.Some? && status.value != "" && LowerAscii(status.value) in {"constructor", "__proto__"}
  {
    if status.None? || status.value == "" then Badge(Info, "Unknown")
    else
      var key := LowerAscii(status.value);
      if key == "closed" && context == IssueContext then Badge(Success, "Resolved")
      else
        InheritedKeysEscapePalette(key);
        Badge(ClassForAsWritten(key), DisplayText(status.value))
  }

  /** The lookup as written leaves the palette exactly on the inherited keys. */
  lemma InheritedKeysEscapePalette(key: string)
    ensures ClassForAsWritten(key) !in Palette <==> key in {"constructor", "__proto__"}
  {
    assert |"constructor"| == 11 && "constructor"[0] == 'c' && "constructor"[1] == 'o';
    assert |"__proto__"| == 9 && "__proto__"[0] == '_';
    assert "constructor" !in StatusClasses && "__proto__" !in StatusClasses;
    assert |"function Object() { [native code] }"| == 35 && |"[object Object]"| == 15;
    assert forall p :: p in Palette ==> 10 <= |p| <= 13;
  }

  /** Any spelling of "constructor" gets a class outside the palette as
      written, where the table lookup gives the informational class. */
  lemma ConstructorEscapesPalette(status: string, context: string)
    requires LowerAscii(status) == "constructor"
    ensures StatusBadgeAsWritten(Some(status), context).cls !in Palette
    ensures StatusBadge(Some(status), context).cls == Info
  {
    var key := LowerAscii(status);
    assert |key| == 11 && key[0] == 'c';
    assert key !in StatusClasses && key != "closed";
    var cls := ClassForAsWritten(key);
    assert cls == "function Object() { [native code] }";
    assert |cls| == 35;
    assert forall p :: p in Palette ==> |p| < 35;
    assert StatusBadgeAsWritten(Some(status), context).cls == cls;
  }

  /** "Constructor" is such a spelling. */
  lemma LowerConstructor()
    ensures LowerAscii("Constructor") == "constructor"
  {
    var key := LowerAscii("Constructor");
    assert |key| == 11 && key[0] == 'c';
    assert forall i :: 1 <= i < 11 ==> key[i] == "Constructor"[i];
  }

  /** The status `Constructor`, in any context, gets the class
      `function Object() { [native code] }` as written. */
  lemma ConstructorExample(context: string)
    ensures StatusBadgeAsWritten(Some("Constructor"), context).cls == "function Object() { [native code] }"
    ensures StatusBadgeAsWritten(Some("Constructor"), context).cls !in Palette
    ensures StatusBadge(Some("Constructor"), context).cls == Info
  {
    LowerConstructor();
    ConstructorEscapesPalette("Constructor", context);
  }

  /** Apart from those two inherited keys the lookup as written is the table. */
  lemma AsWrittenAgreesElsewhere(status: Option<string>, context: string)
    requires status.Some? ==> LowerAscii(status.value) !in {"constructor", "__proto__"}
    ensures StatusBadgeAsWritten(status, context) == StatusBadge(status, context)
  {
  }
}

=== FILE: text_format.dfy ===
/** `truncateText` and `escapeHtml` from public/js/utils.js. */
module TextFormat {
  import opened Wrappers

  // ---------------------------------------------------------------------
  // truncateText
  // ---------------------------------------------------------------------

  const DefaultMaxLength := 100
  const Ellipsis := "..."

  /** `text.substring(0, n)` for `0 <= |text|`: a negative end is clamped to 0
      and an end past the text to its length. */
  function Substring(text: string, n: int): (r: string)
    ensures r == text[..if n < 0 then 0 else if n > |text| then |text| else n]
  {
    if n < 0 then [] else if n > |text| then text else text[..n]
  }

  /** The limit `truncateText` uses when `maxLength` is not given. */
  function Limit(maxLength: Option<int>): int {
    maxLength.GetOr(DefaultMaxLength)
  }

  /** `truncateText(text, maxLength = 100)`: a falsy text gives the empty
      string, a text that fits is returned as it is, and a longer one is cut to
      the limit followed by an ellipsis. */
  function TruncateText(text: Option<string>, maxLength: Option<int>): (r: string)
    ensures text.None? || text.value == "" ==> r == ""
    ensures text.Some? && |text.value| <= Limit(maxLength) ==> r == text.value
    ensures text.Some? && text.value != "" && |text.value| > Limit(maxLength) ==>
      && |r| == (if Limit(maxLength) < 0 then 0 else Limit(maxLength)) + |Ellipsis|
      && r[..|r| - |Ellipsis|] == text.value[..|r| - |Ellipsis|]
      && r[|r| - |Ellipsis|..] == Ellipsis
  {
    var limit := Limit(maxLength);
    if text.None? || text.value == "" then ""
    else if |text.value| <= limit then text.value
    else Substring(text.value, limit) + Ellipsis
  }

  /** Without a limit, a text of at most 100 characters is kept and a longer
      one becomes its first 100 characters and the ellipsis. */
  lemma DefaultLimit(text: string)
    ensures |text| <= 100 ==> TruncateText(Some(text), None) == text
    ensures |text| > 100 ==> TruncateText(Some(text), None) == text[..100] + Ellipsis
  {
  }

  /** Truncation never makes a text longer than the limit plus the ellipsis,
      and never changes a text the limit admits. */
  lemma TruncateBound(text: string, maxLength: Option<int>)
    ensures |TruncateText(Some(text), maxLength)| <= (if Limit(maxLength) < 0 then 0 else Limit(maxLength)) + |Ellipsis|
      || TruncateText(Some(text), maxLength) == text
    ensures |TruncateText(Some(text), maxLength)| <= |text| + |Ellipsis|
  {
  }

  // ---------------------------------------------------------------------
  // escapeHtml
  // ---------------------------------------------------------------------

  /** The five characters `escapeHtml` replaces. */
  predicate IsSpecial(c: char) {
    c == '&' || c == '<' || c == '>' || c == '"' || c == '\''
  }

  /** The replacement table. */
  function EscapeChar(c: char): (r: string)
    ensures !IsSpecial(c) ==> r == [c]
    ensures IsSpecial(c) ==> |r| > 1 && r[0] == '&'
  {
    match c
    case '&' => "&amp;"
    case '<' => "&lt;"
    case '>' => "&gt;"
    case '"' => "&quot;"
    case '\'' => "&#039;"
    case _ => [c]
  }

  /** `text.replace(/[&<>"']/g, m => map[m])`: every character is replaced by
      its table entry, left to right. */
  function EscapeHtml(s: string): (r: string)
    ensures forall i :: 0 <= i < |r| ==> r[i] !in {'<', '>', '"', '\''}
    decreases |s|
  {
    if s == [] then []
    else
      var head := EscapeChar(s[0]);
      assert forall i :: 0 <= i < |head| ==> head[i] !in {'<', '>', '"', '\''};
      head + EscapeHtml(s[1..])
  }

  /** Escaping distributes over concatenation. */
  lemma {:induction false} EscapeConcat(a: string, b: string)
    ensures EscapeHtml(a + b) == EscapeHtml(a) + EscapeHtml(b)
    decreases |a|
  {
    if a == [] {
      assert a + b == b;
    } else {
      assert (a + b)[0] == a[0];
      assert (a + b)[1..] == a[1..] + b;
      EscapeConcat(a[1..], b);
      calc {
        EscapeHtml(a + b);
        EscapeChar(a[0]) + EscapeHtml(a[1..] + b);
        EscapeChar(a[0]) + (EscapeHtml(a[1..]) + EscapeHtml(b));
        (EscapeChar(a[0]) + EscapeHtml(a[1..])) + EscapeHtml(b);
      }
    }
  }

  /** Text without special characters passes through unchanged. */
  lemma {:induction false} EscapeKeepsPlainText(s: string)
    requires forall i :: 0 <= i < |s| ==> !IsSpecial(s[i])
    ensures EscapeHtml(s) == s
    decreases |s|
  {
    if s != [] {
      EscapeKeepsPlainText(s[1..]);
      assert [s[0]] + s[1..] == s;
    }
  }

  /** Escaping never shortens the text. */
  lemma {:induction false} EscapeGrows(s: string)
    ensures |EscapeHtml(s)| >= |s|
    ensures |EscapeHtml(s)| == |s| <==> forall i :: 0 <= i < |s| ==> !IsSpecial(s[i])
    decreases |s|
  {
    if s != [] {
      EscapeGrows(s[1..]);
      assert forall i :: 1 <= i < |s| ==> s[i] == s[1..][i - 1];
    }
  }

  /** Decodes the five entities `escapeHtml` produces, left to right. */
  function UnescapeHtml(s: string): string
    decreases |s|
  {
    if s == [] then []
    else if s[0] != '&' then [s[0]] + UnescapeHtml(s[1..])
    else if |s| >= 5 && s[..5] == "&amp;" then "&" + UnescapeHtml(s[5..])
    else if |s| >= 4 && s[..4] == "&lt;" then "<" + UnescapeHtml(s[4..])
    else if |s| >= 4 && s[..4] == "&gt;" then ">" + UnescapeHtml(s[4..])
    else if |s| >= 6 && s[..6] == "&quot;" then "\"" + UnescapeHtml(s[6..])
    else if |s| >= 6 && s[..6] == "&#039;" then "'" + UnescapeHtml(s[6..])
    else [s[0]] + UnescapeHtml(s[1..])
  }

  /** Decoding one escaped character and then the rest. */
  lemma UnescapeStep(c: char, rest: string)
    ensures UnescapeHtml(EscapeChar(c) + rest) == [c] + UnescapeHtml(rest)
  {
    var e := EscapeChar(c);
    var s := e + rest;
    assert s[..|e|] == e;
    assert s[|e|..] == rest;
    assert s[0] == e[0];
    if IsSpecial(c) {
      assert s[1] == e[1];
      if c != '&' {
        assert |s| < 5 || s[..5] != "&amp;" by {
          if |s| >= 5 {
            assert s[..5][1] == e[1];
          }
        }
      }
      if c == '"' || c == '\'' {
        assert s[..4] != "&lt;" && s[..4] != "&gt;" by {
          assert s[..4][1] == e[1];
        }
      }
      if c == '\'' {
        assert s[..6] != "&quot;" by {
          assert s[..6][1] == e[1];
        }
      }
      if c == '>' {
        assert s[..4] != "&lt;" by {
          assert s[..4][1] == e[1];
        }
      }
    }
  }

  /** No information is lost: decoding the escaped text gives the text back,
      so distinct texts escape to distinct outputs. */
  lemma {:induction false} UnescapeEscape(s: string)
    ensures UnescapeHtml(EscapeHtml(s)) == s
    decreases |s|
  {
    if s != [] {
      UnescapeStep(s[0], EscapeHtml(s[1..]));
      UnescapeEscape(s[1..]);
      assert [s[0]] + s[1..] == s;
    }
  }

  lemma EscapeInjective(a: string, b: string)
    requires EscapeHtml(a) == EscapeHtml(b)
    ensures a == b
  {
    UnescapeEscape(a);
    UnescapeEscape(b);
  }
}

=== FILE: validators.dfy ===
/** The two form validators of the front end: the password policy and the
    e-mail shape check (`validatePassword` and `validateEmail` in
    public/js/utils.js). Inputs are optional because the page may pass
    `undefined`; an absent value is falsy and rejected like the empty string. */
module Validators {
  import opened Wrappers
  import opened JsText

  // ---------------------------------------------------------------------
  // Password policy
  // ---------------------------------------------------------------------

  /** The character classes of the three lookahead tests. */
  datatype CharClass = Upper | Digit | Symbol

  /** `[A-Z]`, `[0-9]` and `[!@#$%^&*]`. */
  predicate InClass(c: char, k: CharClass) {
    match k
    case Upper => 'A' <= c <= 'Z'
    case Digit => '0' <= c <= '9'
    case Symbol => c in "!@#$%^&*"
  }

  const MinPasswordLength := 8

  /** Scans `s` for a character of class `k`. An unanchored `(?=.*[X])` test
      succeeds at the position of any such character (`.*` matching nothing),
      so it is exactly this search. */
  function HasCharIn(s: string, k: CharClass): (b: bool)
    ensures b <==> exists i :: 0 <= i < |s| && InClass(s[i], k)
  {
    if s == [] then false
    else if InClass(s[0], k) then true
    else
      var b := HasCharIn(s[1..], k);
      assert forall i :: 1 <= i < |s| ==> s[i] == s[1..][i - 1];
      b
  }

  /** The policy stated over the characters of the password. */
  ghost predicate PasswordPolicy(p: string) {
    && |p| >= MinPasswordLength
    && (exists i :: 0 <= i < |p| && 'A' <= p[i] <= 'Z')
    && (exists i :: 0 <= i < |p| && '0' <= p[i] <= '9')
    && (exists i :: 0 <= i < |p| && p[i] in "!@#$%^&*")
  }

  /** `validatePassword`: reject a falsy or short password, then run the three
      character-class tests in order. */
  function ValidatePassword(password: Option<string>): (ok: bool)
    ensures ok <==> password.Some? && PasswordPolicy(password.value)
    ensures password.None? || |password.value| < MinPasswordLength ==> !ok
  {
    if password.None? || password.value == [] || |password.value| < MinPasswordLength then false
    else if !HasCharIn(password.value, Upper) then false
    else if !HasCharIn(password.value, Digit) then false
    else if !HasCharIn(password.value, Symbol) then false
    else true
  }

  // ---------------------------------------------------------------------
  // E-mail shape
  // ---------------------------------------------------------------------

  /** `[^\s@]`: the class every part of the address is drawn from. */
  predicate Plain(c: char) {
    !IsSpace(c) && c != '@'
  }

  predicate AllPlain(s: string) {
    forall i :: 0 <= i < |s| ==> Plain(s[i])
  }

  /** The domain part `[^\s@]+\.[^\s@]+`: plain characters with a dot that has
      at least one character on each side. */
  ghost predicate IsDomain(d: string) {
    AllPlain(d) && exists k :: 0 < k < |d| - 1 && d[k] == '.'
  }

  /** `s` splits at position `i` into plain characters, an `@` and a domain. */
  ghost predicate AtSplit(s: string, i: int) {
    0 <= i < |s| && s[i] == '@' && AllPlain(s[..i]) && IsDomain(s[i + 1..])
  }

  /** The whole pattern `^[^\s@]+@[^\s@]+\.[^\s@]+$`: a non-empty local part,
      an `@`, and a domain. */
  ghost predicate IsEmailAddress(t: string) {
    exists i :: 0 < i && AtSplit(t, i)
  }

  /** The same shape, stated the way a reader checks it: no whitespace, exactly
      one `@`, a non-empty local part, and a dot inside the domain. */
  ghost predicate LooksLikeEmail(t: string) {
    && (forall k :: 0 <= k < |t| ==> !IsSpace(t[k]))
    && exists i :: 0 < i < |t| && t[i] == '@'
         && (forall k :: 0 <= k < |t| && t[k] == '@' ==> k == i)
         && exists j :: i + 1 < j < |t| - 1 && t[j] == '.'
  }

  /** States of a deterministic automaton recognising the pattern. `Local`:
      inside the local part; `AfterAt`: just read the `@`; `Domain`: inside
      the domain with no usable dot yet; `AfterDot`: just read such a dot;
      `Done`: accepting; `Dead`: rejected. */
  datatype EmailState = Start | Local | AfterAt | Domain | AfterDot | Done | Dead

  function Step(q: EmailState, c: char): EmailState {
    if !Plain(c) && !(c == '@' && q == Local) then Dead
    else
      match q
      case Start => Local
      case Local => if c == '@' then AfterAt else Local
      case AfterAt => Domain
      case Domain => if c == '.' then AfterDot else Domain
      case AfterDot => Done
      case Done => Done
      case Dead => Dead
  }

  function Run(q: EmailState, s: string): EmailState
    decreases |s|
  {
    if s == [] then q else Run(Step(q, s[0]), s[1..])
  }

  /** `validateEmail`: reject a falsy value, otherwise test the trimmed text
      against the pattern. */
  function ValidateEmail(email: Option<string>): (ok: bool)
    ensures ok <==> email.Some? && email.value != "" && IsEmailAddress(Trim(email.value))
  {
    if email.None? || email.value == [] then false
    else
      RunAccepts(Trim(email.value));
      Run(Start, Trim(email.value)) == Done
  }

  /** A practical reading of the validator's result. */
  lemma ValidateEmailShape(email: string)
    ensures ValidateEmail(Some(email)) <==> email != "" && LooksLikeEmail(Trim(email))
  {
    EmailAddressShape(Trim(email));
  }

  // --- proofs about the automaton ----------------------------------------

  lemma {:induction false} DeadStays(s: string)
    ensures Run(Dead, s) == Dead
    decreases |s|
  {
    if s != [] {
      DeadStays(s[1..]);
    }
  }

  lemma {:induction false} DoneAccepts(s: string)
    ensures Run(Done, s) == Done <==> AllPlain(s)
    decreases |s|
  {
    if s != [] {
      if Plain(s[0]) {
        DoneAccepts(s[1..]);
        assert AllPlain(s) <==> AllPlain(s[1..]) by {
          assert forall i :: 1 <= i < |s| ==> s[i] == s[1..][i - 1];
        }
      } else {
        DeadStays(s[1..]);
      }
    }
  }

  lemma AfterDotAccepts(s: string)
    ensures Run(AfterDot, s) == Done <==> |s| > 0 && AllPlain(s)
  {
    if s != [] {
      if Plain(s[0]) {
        DoneAccepts(s[1..]);
        assert AllPlain(s) <==> AllPlain(s[1..]) by {
          assert forall i :: 1 <= i < |s| ==> s[i] == s[1..][i - 1];
        }
      } else {
        DeadStays(s[1..]);
      }
    }
  }

  /** From `Domain` the rest must be plain and hold a dot followed by at least
      one character. */
  lemma {:induction false} DomainAccepts(s: string)
    ensures Run(Domain, s) == Done <==> AllPlain(s) && exists k :: 0 <= k < |s| - 1 && s[k] == '.'
    decreases |s|
  {
    if s != [] {
      var rest := s[1..];
      assert forall i :: 1 <= i < |s| ==> s[i] == rest[i - 1];
      if !Plain(s[0]) {
        DeadStays(rest);
      } else if s[0] == '.' {
        AfterDotAccepts(rest);
        if |rest| > 0 {
          assert 0 <= 0 < |s| - 1 && s[0] == '.';
        }
      } else {
        DomainAccepts(rest);
        if exists k :: 0 <= k < |s| - 1 && s[k] == '.' {
          var k :| 0 <= k < |s| - 1 && s[k] == '.';
          assert 0 <= k - 1 < |rest| - 1 && rest[k - 1] == '.';
        }
        if exists k :: 0 <= k < |rest| - 1 && rest[k] == '.' {
          var k :| 0 <= k < |rest| - 1 && rest[k] == '.';
          assert 0 <= k + 1 < |s| - 1 && s[k + 1] == '.';
        }
      }
    }
  }

  lemma AfterAtAccepts(s: string)
    ensures Run(AfterAt, s) == Done <==> IsDomain(s)
  {
    if s != [] {
      var rest := s[1..];
      assert forall i :: 1 <= i < |s| ==> s[i] == rest[i - 1];
      if !Plain(s[0]) {
        DeadStays(rest);
      } else {
        DomainAccepts(rest);
        if exists k :: 0 < k < |s| - 1 && s[k] == '.' {
          var k :| 0 < k < |s| - 1 && s[k] == '.';
          assert 0 <= k - 1 < |rest| - 1 && rest[k - 1] == '.';
        }
        if exists k :: 0 <= k < |rest| - 1 && rest[k] == '.' {
          var k :| 0 <= k < |rest| - 1 && rest[k] == '.';
          assert 0 < k + 1 < |s| - 1 && s[k + 1] == '.';
        }
      }
    }
  }

  /** Moving a split point past a first plain character. */
  lemma SplitShift(s: string, i: int)
    requires |s| > 0 && 1 <= i
    ensures AtSplit(s, i) <==> Plain(s[0]) && AtSplit(s[1..], i - 1)
  {
    if i < |s| {
      assert s[..i] == [s[0]] + s[1..][..i - 1];
      assert s[i + 1..] == s[1..][i..];
    }
  }

  /** From `Local` (one local character already read) the rest must be plain
      up to some `@`, followed by a domain. */
  lemma {:induction false} LocalAccepts(s: string)
    ensures Run(Local, s) == Done <==> exists i :: AtSplit(s, i)
    decreases |s|
  {
    if s != [] {
      var rest := s[1..];
      if s[0] == '@' {
        AfterAtAccepts(rest);
        assert AtSplit(s, 0) <==> IsDomain(rest) by {
          assert s[..0] == [];
        }
        forall i | 0 < i < |s|
          ensures !AtSplit(s, i)
        {
          assert s[..i][0] == s[0];
        }
      } else if !Plain(s[0]) {
        DeadStays(rest);
        forall i | 0 < i < |s|
          ensures !AtSplit(s, i)
        {
          assert s[..i][0] == s[0];
        }
      } else {
        LocalAccepts(rest);
        if exists i :: AtSplit(s, i) {
          var i :| AtSplit(s, i);
          SplitShift(s, i);
          assert AtSplit(rest, i - 1);
        }
        if exists i :: AtSplit(rest, i) {
          var i :| AtSplit(rest, i);
          SplitShift(s, i + 1);
          assert AtSplit(s, i + 1);
        }
      }
    }
  }

  /** The automaton accepts exactly the addresses the pattern describes. */
  lemma RunAccepts(t: string)
    ensures Run(Start, t) == Done <==> IsEmailAddress(t)
  {
    if t != [] {
      var rest := t[1..];
      if !Plain(t[0]) {
        DeadStays(rest);
        if IsEmailAddress(t) {
          var i :| 0 < i && AtSplit(t, i);
          SplitShift(t, i);
        }
      } else {
        LocalAccepts(rest);
        if IsEmailAddress(t) {
          var i :| 0 < i && AtSplit(t, i);
          SplitShift(t, i);
          assert AtSplit(rest, i - 1);
        }
        if exists i :: AtSplit(rest, i) {
          var i :| AtSplit(rest, i);
          SplitShift(t, i + 1);
          assert 0 < i + 1 && AtSplit(t, i + 1);
        }
      }
    }
  }

  /** The pattern and the reader's description agree. */
  lemma EmailAddressShape(t: string)
    ensures IsEmailAddress(t) <==> LooksLikeEmail(t)
  {
    if IsEmailAddress(t) {
      var i :| 0 < i && AtSplit(t, i);
      var d := t[i + 1..];
      var k :| 0 < k < |d| - 1 && d[k] == '.';
      assert forall m :: 0 <= m < i ==> t[m] == t[..i][m];
      assert forall m :: i < m < |t| ==> t[m] == d[m - i - 1];
      assert i + 1 < i + 1 + k < |t| - 1 && t[i + 1 + k] == '.';
    }
    if LooksLikeEmail(t) {
      var i :| 0 < i < |t| && t[i] == '@'
         && (forall k :: 0 <= k < |t| && t[k] == '@' ==> k == i)
         && exists j :: i + 1 < j < |t| - 1 && t[j] == '.';
      var j :| i + 1 < j < |t| - 1 && t[j] == '.';
      var d := t[i + 1..];
      assert forall m :: 0 <= m < |d| ==> d[m] == t[i + 1 + m];
      assert 0 < j - i - 1 < |d| - 1 && d[j - i - 1] == '.';
      assert AllPlain(t[..i]);
      assert IsDomain(d);
      assert AtSplit(t, i);
    }
  }
}

=== FILE: wrappers.dfy ===
/** Optional values and success/failure results, standing in for JavaScript's
    `null`/`undefined` and for thrown exceptions. */
module Wrappers {

  /** A value that may be missing (`null` or `undefined` on the JavaScript side). */
  datatype Option<+T> = None | Some(value: T) {

    /** The carried value, or `default` when there is none. */
    function GetOr(default: T): T {
      match this
      case Some(v) => v
      case None => default
    }
  }

  /** The outcome of an operation that either returns a value or throws. */
  datatype Result<+T, +E> = Ok(value: T) | Err(error: E)
}
